=== FILE: README.md ===
# terminal-tree, modelled in Dafny

terminal-tree is a terminal directory browser. It shows a directory tree with:

- a breadcrumb of the current root;
- an info bar for the highlighted entry;
- an optional preview pane;
- a "go to" editor that completes typed paths to directories.

It ships in two variants: `tree.py` (POSIX) and `windows/tree.py` (Windows). This project models the logic both variants share. A `Paths.Flavor` (POSIX `/` or Windows `\`) selects the variant wherever they differ.

- `Paths` models the part of `pathlib` the browser relies on: parsing, printing, `name`, `parent`, and the bare `~` form of `expanduser`.
- `Oracles` represents the filesystem as total functions. These answer `is_dir`, `iterdir` (entries or an OS error), `resolve` and the home directory. The preview jobs take what `is_file` said as part of what they observed.
- `DirCache` is `ListDirCache.listdir`. It caches listings by `(str(path), size)`, keeps the first `size` entries, and stores nothing on failure.
- `Suggester` is `DirectorySuggester.get_suggestion`:
  - it lists the typed directory, or its parent, through the cache (`size` is 100);
  - it keeps the child directories whose lower-cased name starts with the typed name;
  - it picks the shortest of them, or the earliest among equally short ones;
  - it writes the home directory back as `~`;
  - a missing directory means no suggestion.
- `Breadcrumb` is `PathDisplay.compose`: the root crumb, then one crumb per component. Each crumb is named by the path up to that component.
- `PathScreen` is the initial value of the "go to" editor: the path with exactly one trailing separator.
- `LsDate` is `InfoBar.datetime_to_ls_format`. The current year is a parameter.
- `Preview` covers the preview jobs:
  - `PreviewWindow.update_syntax` (POSIX) and `PreviewWindow.get_syntax` (Windows);
  - what each observed outcome does to the pane and to its "preview unavailable" flag.
- `Navigator` covers the `PathNavigator` transitions: `on_new_path`, `on_node_highlighted`, `action_toggle_preview` and `action_reload`.

Exceptions are values. `Oracles.Result` is either `Ok` or `Raised(failure)`; a preview job whose read raises ends as `Preview.Escaped`.

## Model

| member | source | states |
|---|---|---|
| DirCache.ListDir | tree.py:91-108 | A hit returns the stored list and leaves the cache unchanged. A miss succeeds exactly when the listing succeeds and the size is not negative. It then returns the first `size` entries in iteration order (all of them if there are fewer) and stores them under the key. A failing listing raises its own error and stores nothing. Stored lists are never replaced, and every stored list stays within its key's size. |
| DirCache.Take | tree.py:100 | `islice(entries, n)` is the prefix of length `n`, or all the entries when there are fewer. |
| DirCache.RepeatHits | tree.py:102-108 | After a successful call, repeating it with the same path and size returns the same list, even if the directory has changed. |
| DirCache.RunKeepsEntries | windows/tree.py:57-69 | Over any sequence of calls the cache only grows. No stored list is replaced, and every list stays within the size in its key. |
| DirCache.StoredAnswers | tree.py:102-104 | A stored list is returned by every later call with its key. |
| DirCache.SameKeySameAnswer | tree.py:91-108 | Within any run of calls, once a call for a path and size succeeds, every later call for the same path and size returns the same list. |
| Suggester.PossiblePaths | tree.py:132-138 | Every candidate ends with the separator. There are never more candidates than children, and there are none exactly when no child is kept. |
| Suggester.PossiblePathsContents | tree.py:132-138 | The candidates are exactly the kept children, each followed by the separator: every candidate comes from a kept child, and every kept child gives a candidate. |
| Suggester.FirstShortest | tree.py:139-141 | A stable sort by length puts first a shortest candidate, and the earliest among the shortest. |
| Suggester.RestoreTilde | tree.py:143-145 | When the typed value contains `~`, the first occurrence of the home directory is replaced by `~`. Otherwise the suggestion is unchanged, and it is also unchanged when home does not occur. |
| Suggester.GetSuggestion | tree.py:123-150 | The cache after a suggestion is the cache after its listing. A suggestion raises exactly when the listing raised something other than `FileNotFoundError`. |
| Suggester.ChosenChild | tree.py:132-141 | Filtering, then sorting by length, picks the child that is kept, no longer than any kept child, and strictly shorter than every kept child listed before it. |
| Suggester.ChoiceUnique | tree.py:139-141 | That child is unique, so the tie-break is determined by listing order. |
| Suggester.SuggestionAbsent | tree.py:146-150 | There is no suggestion exactly when the directory is missing or no listed child is a directory whose name has the typed prefix (case-insensitively). Both directions are proved. |
| Suggester.SuggestionChosen | windows/tree.py:79-106 | A suggestion is the chosen child plus the separator, with the home directory written back as `~` when `~` was typed. Without `~` it always ends with the separator. |
| Breadcrumb.Compose | tree.py:253-267 | The crumbs are a root crumb named by the separator, then one crumb per component of the split path (on Windows, one per component after the drive, as windows/tree.py:190-204 does). The facts about each item are in PosixItems and WindowsItems. |
| Breadcrumb.PosixItems | tree.py:253-267 | Item `i` is labelled with component `i-1` and named by the join of the first `i` components. A separator follows it exactly when `1 < i < n`. The root crumb is `/`. |
| Breadcrumb.WindowsItems | windows/tree.py:190-204 | The drive gets no crumb. Item `i` is labelled with component `i` and named by the join of components `0..i`. A separator follows it exactly when `i < n-1`. The root crumb is `\`. |
| Breadcrumb.CrumbNamesArePrefixes | tree.py:258-264 | Each component crumb's name is a prefix of the path string ending at a separator or at the end. The last crumb is named by the path itself. |
| Breadcrumb.PosixFirstCrumbEmpty | tree.py:257-264 | On POSIX the crumb after the root is labelled and named by the empty component before the leading `/`. A click on it posts `Path("")`, the working directory, which is not in general an ancestor of the path. |
| Breadcrumb.PosixShowsPath | tree.py:253-267 | Read left to right, the POSIX crumbs and separators spell exactly the absolute path. |
| Breadcrumb.WindowsShowsPathWithoutDrive | windows/tree.py:190-204 | The drive followed by the Windows crumbs and separators spells the path. |
| Breadcrumb.WindowsBareDrive | windows/tree.py:194-197 | A path with no separator shows only the root crumb. |
| PathScreen.InitialValue | tree.py:310-312 | The editor's value ends in exactly one separator. Before it comes the input's prefix, and what was cut off is nothing but separators. |
| PathScreen.InitialValueIdempotent | windows/tree.py:238-240 | Normalising an already normalised value changes nothing. |
| LsDate.LsFormat | tree.py:195-202 | A date in the current year gives the twelve-character clock form; any other date does not. |
| LsDate.FormatRoundTrip | tree.py:195-202 | Reading the formatted date back gives the day, the month and the time of day for the current year. For other years it gives the day, the month and the year. |
| LsDate.DecimalRoundTrip | tree.py:202 | `%Y` writes the year's digits so that they read back as the year. |
| Preview.UpdateSyntax | tree.py:368-416 | A non-file changes nothing. A failed read shows "Preview not available" and sets the flag, even after cancellation. A cancelled job or a refused highlighter leaves the pane as it was. Otherwise the joined lines are shown highlighted and the flag is cleared. The flag stays set exactly when the placeholder is shown. |
| Preview.InitialConsistent | tree.py:421-422 | The freshly composed pane, an empty `#content` without the flag, satisfies the flag invariant. |
| Preview.RunKeepsConsistent | tree.py:379-416 | After any series of jobs the flag is set exactly when the placeholder is shown. |
| Preview.GetSyntax | windows/tree.py:288-332 | A `text/` file is highlighted with the guessed lexer, unless the highlighter refuses. Any other file has its first 64 KiB decoded as plain text, or shows the placeholder when decoding fails. A read that raises escapes the job. The flag invariant is kept. |
| Preview.ReadsAtMostLimit | windows/tree.py:313-316 | Two non-text files that agree on their first 64 KiB are previewed alike. |
| Preview.Head | windows/tree.py:315 | `read(64 KiB)` is a prefix of at most 64 KiB, and the whole file when it is smaller. |
| Navigator.OnNewPath | tree.py:482-494 | A target that is not a directory as written changes nothing and produces an error notice. A directory becomes the root, after `expanduser().resolve()`. The tree and the breadcrumb receive it as written, and nothing else changes. |
| Navigator.OnNewPathIdempotent | windows/tree.py:393-404 | Posting the same target a second time leaves the state as the first posting left it. |
| Navigator.OnNodeHighlighted | tree.py:476-481 | A node with data hands its path to the info bar and the preview. A preview job starts exactly when that path differs from the previous one. A node without data changes nothing. |
| Navigator.HighlightTwice | tree.py:476-481 | Highlighting the same node again hands on the same path and starts no second preview job, because the preview's path does not change. |
| Navigator.TogglePreview | tree.py:531-533 | Only the preview flag changes, and it flips. |
| Navigator.ActionReload | tree.py:506-516 | Without a cursor the whole tree is reloaded, with the "Reloaded directory contents" notice. With a cursor the parent node is reloaded, with a notice naming its path. A missing parent or missing parent data fails the assertion. |
| Navigator.RejectionQuotesCurrentRoot | tree.py:485-490 | The rejection notice quotes the current root, which is a directory, rather than the rejected path. |
| Navigator.TildeTargetRejected | windows/tree.py:395-400 | `~/Documents` is rejected although its expanded form is a directory. |
| Navigator.OnNewPathIntended | tree.py:483-494 | The corrected transition checks the path the root would become and quotes the rejected path. On acceptance, that validated root is also handed to the tree and the breadcrumb. |
| Navigator.IntendedKeepsRootADirectory | tree.py:466-468 | With the corrected check the root, and the path the tree shows, are always directories. Every rejection quotes a path that is not a directory once expanded. |
| Navigator.IntendedAcceptsValidated | tree.py:70-75 | The corrected check accepts exactly the targets the path editor's validator accepts: those whose expanded, resolved form is a directory. |
| Paths.ParseRender | tree.py:126-131 | Printing a well-formed path and parsing the text again gives the same path. |
| Paths.ExpandUser | tree.py:131 | A relative path starting with `~` has that component replaced by the home directory. Every other path is unchanged. |
| Paths.ExpandTwice | tree.py:131 | With an absolute home directory, expanding an already expanded path changes nothing more. |

## Left out

- The LRU eviction of `ListDirCache` (capacity 100) is not modelled. The cache is an unbounded map, so a hit in the model may be a miss after eviction in the program.
- Concurrency is left out: the worker threads, the `threading.Lock` that both caches take around a lookup and its listing, and `@work(exclusive=True)` cancellation. A preview job's cancellation is an observed flag.
- The cache is never invalidated, not even by the reload action, because the code never clears it. The cache belongs to the suggester, which the reload action does not touch.
- Paths.ExpandUser — models only the bare `~` form: `~user/...` is left unchanged where `pathlib` expands it, and the `RuntimeError` raised when the home directory cannot be determined is not modelled.
- Windows drive letters, UNC paths, `/` as an alternate Windows separator, and POSIX's special `//` anchor are not modelled. `resolve` is an opaque function of the filesystem.
- Case folding is ASCII only. Python's `str.lower` folds all of Unicode.
- `%b` is modelled in the C locale. `%Y` for years below 1000 is platform dependent; the model writes the digits unpadded.
- A missing directory and a negative size raise in a fixed order, the listing error first. In Python 3.12 and earlier `iterdir` is lazy, so with size 0 nothing would be listed.
- The program reads the clock; `LsFormat` takes the current year as a parameter.
- Preview.UpdateSyntax takes the lines read as an input. It does not model the 32 KiB `readlines` hint, the mimetype encoding guess, or rich's lexer guess; `lexer` and `syntaxOk` are inputs.
- Preview.GetSyntax treats the plain-text `Syntax(..., lexer="text")` construction in its non-text branch as never raising.
- Not modelled: Textual widget plumbing, CSS classes other than the preview-unavailable flag, notification rendering, repr quoting in the reload notice, and the folder-icon label of the breadcrumb.
- Not modelled: `DirectoryHighlighter`, `DirectoryValidator` (only its acceptance condition is used), app start-up, `run()`, `action_goto`'s screen push, and `InfoBar.compose`'s stat fields.

## Findings

| source | as written | input that shows it | evidently intended | confidence | as-written member | corrected member |
|---|---|---|---|---|---|---|
| tree.py:485-490 | The rejection notice formats `self.path`, the current root, which is a directory. | Root `/home/u`, target `/etc/passwd`: the notice reads `'/home/u' is not a directory`. | Quote the rejected target. | high, not executed | Navigator.RejectionQuotesCurrentRoot | Navigator.OnNewPathIntended |
| windows/tree.py:395 | `is_dir()` runs on the target before `~` is expanded, but the validator (tree.py:70-75) expands first. | Home `/home/u` with `/home/u/Documents` a directory: `~/Documents` passes the validator and is then rejected. | Check the expanded, resolved target that will become the root, and hand that root to the tree and the breadcrumb, which do not expand `~` themselves. | medium, not executed | Navigator.TildeTargetRejected | Navigator.OnNewPathIntended |

=== FILE: breadcrumb.dfy ===
/** `PathDisplay.compose`: the clickable breadcrumb shown above the tree.
    The resolved path string is split on the separator; each component
    becomes a crumb labelled with the component and named with the path up
    to and including it (clicking a crumb navigates to its name). */
module Breadcrumb {
  import opened Strings
  import opened Paths

  /** One clickable component, and whether a separator label follows it.
      (The leading folder-icon label is constant and not modelled.) */
  datatype Crumb = Crumb(caption: string, name: string, divided: bool)

  /** The crumb for component `j` of `comps`. */
  function CrumbAt(comps: seq<string>, j: nat, sep: char): Crumb
    requires j < |comps|
  {
    Crumb(comps[j], Join(comps[..j + 1], sep), 0 < j < |comps| - 1)
  }

  /** The crumbs for components `j` onwards. */
  function Trail(comps: seq<string>, j: nat, sep: char): (r: seq<Crumb>)
    requires j <= |comps|
    ensures |r| == |comps| - j
    decreases |comps| - j
  {
    if j == |comps| then [] else [CrumbAt(comps, j, sep)] + Trail(comps, j + 1, sep)
  }

  /** The crumbs shown for the resolved absolute path `path`: a root crumb
      named by the separator, then on POSIX one crumb per component
      (including the empty one before the leading "/"), and on Windows one
      per component after the drive. */
  function Compose(f: Flavor, path: string): (r: seq<Crumb>)
    // one crumb per component (after the drive on Windows), plus the root
    ensures |r| == |Split(path, Sep(f))| + (if f == Posix then 1 else 0)
    ensures r[0] == Crumb([Sep(f)], [Sep(f)], false)
  {
    var sep := Sep(f);
    var comps := Split(path, sep);
    [Crumb([sep], [sep], false)] + Trail(comps, if f == Posix then 0 else 1, sep)
  }

  /** The text the crumbs display, separator labels included. */
  function Text(crumbs: seq<Crumb>, sep: char): string
  {
    if |crumbs| == 0 then []
    else crumbs[0].caption + (if crumbs[0].divided then [sep] else []) + Text(crumbs[1..], sep)
  }

  lemma {:induction false} TrailIndex(comps: seq<string>, j: nat, sep: char, k: nat)
    requires j <= |comps| && k < |comps| - j
    ensures Trail(comps, j, sep)[k] == CrumbAt(comps, j + k, sep)
    decreases k
  {
    if k > 0 {
      TrailIndex(comps, j + 1, sep, k - 1);
    }
  }

  /** On POSIX, item i (counting the root as item 0) is labelled with
      component i-1 and named by the join of the first i components; a
      separator follows it exactly when 1 < i < number of components. */
  lemma PosixItems(path: string)
    ensures var comps := Split(path, '/');
            var r := Compose(Posix, path);
            && |r| == |comps| + 1
            && r[0] == Crumb("/", "/", false)
            && forall i :: 1 <= i <= |comps| ==>
                 && r[i].caption == comps[i - 1]
                 && r[i].name == Join(comps[..i], '/')
                 && (r[i].divided <==> 1 < i < |comps|)
  {
    var comps := Split(path, '/');
    forall i | 1 <= i <= |comps|
      ensures Compose(Posix, path)[i] == CrumbAt(comps, i - 1, '/')
    {
      ComposedCrumb(Posix, path, i);
    }
  }

  /** Item `i` >= 1 of the breadcrumb is the crumb of its component. */
  lemma ComposedCrumb(f: Flavor, path: string, i: nat)
    requires 1 <= i < |Compose(f, path)|
    ensures var start := if f == Posix then 0 else 1;
            Compose(f, path)[i] == CrumbAt(Split(path, Sep(f)), start + i - 1, Sep(f))
  {
    var start := if f == Posix then 0 else 1;
    TrailIndex(Split(path, Sep(f)), start, Sep(f), i - 1);
  }

  /** On Windows, the drive (component 0) gets no crumb of its own: item i
      is labelled with component i and named by the join of components 0..i;
      a separator follows it exactly when i < number of components - 1. */
  lemma WindowsItems(path: string)
    ensures var comps := Split(path, '\\');
            var r := Compose(Windows, path);
            && |r| == |comps|
            && r[0] == Crumb("\\", "\\", false)
            && forall i :: 1 <= i < |comps| ==>
                 && r[i].caption == comps[i]
                 && r[i].name == Join(comps[..i + 1], '\\')
                 && (r[i].divided <==> i < |comps| - 1)
  {
    var comps := Split(path, '\\');
    forall i | 1 <= i < |comps|
      ensures Compose(Windows, path)[i] == CrumbAt(comps, i, '\\')
    {
      ComposedCrumb(Windows, path, i);
    }
  }

  /** Every component crumb is named by a prefix of the path string that
      ends at a separator or at the end of the path; the last crumb is named
      by the path itself. (On POSIX the first component crumb is named "",
      see `PosixFirstCrumbEmpty`.) */
  lemma CrumbNamesArePrefixes(f: Flavor, path: string)
    ensures var r := Compose(f, path);
            var sep := Sep(f);
            forall i :: 1 <= i < |r| ==>
              && |r[i].name| <= |path|
              && path[..|r[i].name|] == r[i].name
              && (|r[i].name| == |path| || path[|r[i].name|] == sep)
    ensures var r := Compose(f, path);
            |r| > 1 ==> r[|r| - 1].name == path
  {
    var r := Compose(f, path);
    forall i | 1 <= i < |r|
      ensures |r[i].name| <= |path| && path[..|r[i].name|] == r[i].name
      ensures |r[i].name| == |path| || path[|r[i].name|] == Sep(f)
    {
      CrumbIsAncestor(f, path, i);
    }
    if |r| > 1 {
      LastCrumbIsPath(f, path);
    }
  }

  /** On POSIX the crumb after the root is labelled and named by the empty
      component before the leading "/"; a click on it posts `Path("")`,
      which is the working directory rather than an ancestor of the path. */
  lemma PosixFirstCrumbEmpty(path: string)
    requires |path| > 0 && path[0] == '/'
    ensures |Compose(Posix, path)| >= 2
    ensures Compose(Posix, path)[1] == Crumb("", "", false)
  {
    assert path == [] + ['/'] + path[1..];
    SplitAfterPiece([], path[1..], '/');
    var comps := Split(path, '/');
    TrailIndex(comps, 0, '/', 0);
    assert comps[..1] == [[]];
  }

  lemma CrumbIsAncestor(f: Flavor, path: string, i: nat)
    requires 1 <= i < |Compose(f, path)|
    ensures var n := Compose(f, path)[i].name;
            |n| <= |path| && path[..|n|] == n && (|n| == |path| || path[|n|] == Sep(f))
  {
    var sep := Sep(f);
    var comps := Split(path, sep);
    var start := if f == Posix then 0 else 1;
    JoinSplit(path, sep);
    TrailIndex(comps, start, sep, i - 1);
    assert Compose(f, path)[i] == CrumbAt(comps, start + i - 1, sep);
    PrefixJoinIsAncestor(comps, start + i - 1, sep);
  }

  lemma LastCrumbIsPath(f: Flavor, path: string)
    requires |Compose(f, path)| > 1
    ensures Compose(f, path)[|Compose(f, path)| - 1].name == path
  {
    var sep := Sep(f);
    var comps := Split(path, sep);
    var start := if f == Posix then 0 else 1;
    var r := Compose(f, path);
    JoinSplit(path, sep);
    TrailIndex(comps, start, sep, |r| - 2);
    assert r[|r| - 1] == CrumbAt(comps, |comps| - 1, sep);
    assert comps[..|comps|] == comps;
  }

  /** The join of the first `j + 1` components is a prefix of the join of
      all of them, followed there by a separator or by nothing. */
  lemma PrefixJoinIsAncestor(comps: seq<string>, j: nat, sep: char)
    requires j < |comps|
    ensures var n := Join(comps[..j + 1], sep);
            var p := Join(comps, sep);
            |n| <= |p| && p[..|n|] == n && (|n| == |p| || p[|n|] == sep)
  {
    if j + 1 < |comps| {
      JoinAt(comps, j + 1, sep);
    } else {
      assert comps[..j + 1] == comps;
    }
  }

  /** The crumbs after component `j` >= 1 display the rest of the path. */
  lemma {:induction false} TrailText(comps: seq<string>, j: nat, sep: char)
    requires 1 <= j < |comps|
    ensures Text(Trail(comps, j, sep), sep) == Join(comps[j..], sep)
    decreases |comps| - j
  {
    var t := Trail(comps, j, sep);
    assert t[1..] == Trail(comps, j + 1, sep);
    if j == |comps| - 1 {
      assert comps[j..] == [comps[j]];
    } else {
      TrailText(comps, j + 1, sep);
      assert comps[j..][1..] == comps[j + 1..];
    }
  }

  lemma {:induction false} SepSplitsInTwo(s: string, sep: char)
    requires sep in s
    ensures |Split(s, sep)| >= 2
    decreases |s|
  {
    if s[0] != sep {
      SepSplitsInTwo(s[1..], sep);
    }
  }

  /** Read left to right, the POSIX breadcrumb shows exactly the absolute
      path it was made from. */
  lemma PosixShowsPath(path: string)
    requires |path| > 0 && path[0] == '/'
    ensures Text(Compose(Posix, path), '/') == path
  {
    var comps := Split(path, '/');
    assert path == [] + ['/'] + path[1..];
    SplitAfterPiece([], path[1..], '/');
    assert comps[0] == [] && |comps| >= 2;
    JoinSplit(path, '/');
    TrailText(comps, 1, '/');
    var t := Trail(comps, 0, '/');
    assert t[1..] == Trail(comps, 1, '/');
    assert Text(t, '/') == Join(comps[1..], '/');
    var r := Compose(Posix, path);
    assert r[1..] == t;
  }

  /** Read left to right, the Windows breadcrumb shows the path without its
      drive: the drive followed by the displayed text is the path. */
  lemma WindowsShowsPathWithoutDrive(path: string)
    requires '\\' in path
    ensures Split(path, '\\')[0] + Text(Compose(Windows, path), '\\') == path
  {
    var comps := Split(path, '\\');
    SepSplitsInTwo(path, '\\');
    JoinSplit(path, '\\');
    DriveThenText(path, comps);
  }

  lemma DriveThenText(path: string, comps: seq<string>)
    requires comps == Split(path, '\\') && |comps| >= 2 && Join(comps, '\\') == path
    ensures comps[0] + Text(Compose(Windows, path), '\\') == path
  {
    WindowsText(comps, path);
    JoinFirst(comps, '\\');
  }

  lemma JoinFirst(comps: seq<string>, sep: char)
    requires |comps| >= 2
    ensures Join(comps, sep) == comps[0] + ([sep] + Join(comps[1..], sep))
  {
    assert Join(comps, sep) == comps[0] + [sep] + Join(comps[1..], sep);
  }

  lemma WindowsText(comps: seq<string>, path: string)
    requires comps == Split(path, '\\') && |comps| >= 2
    ensures Text(Compose(Windows, path), '\\') == "\\" + Join(comps[1..], '\\')
  {
    var r := Compose(Windows, path);
    TrailText(comps, 1, '\\');
    assert r[1..] == Trail(comps, 1, '\\');
  }

  /** A Windows path with no separator shows only the root crumb. */
  lemma WindowsBareDrive(path: string)
    requires '\\' !in path
    ensures Compose(Windows, path) == [Crumb("\\", "\\", false)]
  {
    SplitWithoutSep(path, '\\');
  }
}

=== FILE: dircache.dfy ===
/** `ListDirCache`: directory listings cached by `(str(path), size)`.
    The cache is a map; a miss lists the directory and stores the first
    `size` entries, a hit returns the stored list, a failure stores nothing. */
module DirCache {
  import opened Oracles

  type Key = (string, int)
  type Cache = map<Key, seq<string>>

  /** The cache after one `listdir` call, and what the call returned or raised. */
  datatype Reply<+T> = Reply(cache: Cache, result: Result<T>)

  /** `itertools.islice(entries, n)`: the first `n` entries, or all of them
      when there are fewer. */
  function Take(entries: seq<string>, n: nat): (r: seq<string>)
    ensures |r| <= n && |r| <= |entries|
    ensures |r| == n || |r| == |entries|
    ensures r == entries[..|r|]
  {
    if n < |entries| then entries[..n] else entries
  }

  /** A cache whose every stored list respects the size in its key. */
  ghost predicate Coherent(cache: Cache)
  {
    forall k :: k in cache ==> 0 <= k.1 && |cache[k]| <= k.1
  }

  /** `await ListDirCache.listdir(path, size)`, with `listDir` the filesystem's
      `iterdir` and `path` the string `str(path)`. */
  function ListDir(cache: Cache, listDir: string -> Listing, path: string, size: int): (r: Reply<seq<string>>)
    // a hit returns the stored list and leaves the cache alone
    ensures (path, size) in cache ==> r == Reply(cache, Ok(cache[(path, size)]))
    // a miss succeeds exactly when the listing does and the size is not negative
    ensures (path, size) !in cache ==>
              (r.result.Ok? <==> listDir(path).Entries? && size >= 0)
    // ... and then returns a prefix of the iteration order of at most `size`
    // entries, stored under the key
    ensures (path, size) !in cache && r.result.Ok? ==>
              && |r.result.value| <= size
              && listDir(path).Entries?
              && |r.result.value| <= |listDir(path).paths|
              && r.result.value == listDir(path).paths[..|r.result.value|]
              && (|r.result.value| == size || r.result.value == listDir(path).paths)
              && r.cache == cache[(path, size) := r.result.value]
    // a failing listing stores nothing and raises what the listing raised
    ensures (path, size) !in cache && listDir(path).ListFailed? ==>
              r == Reply(cache, Raised(listDir(path).failure))
    ensures r.result.Raised? ==> r.cache == cache
    // stored entries are never replaced
    ensures forall k :: k in cache ==> k in r.cache && r.cache[k] == cache[k]
    ensures Coherent(cache) ==> Coherent(r.cache)
  {
    var key := (path, size);
    if key in cache then Reply(cache, Ok(cache[key]))
    else
      match listDir(path)
      case ListFailed(failure) => Reply(cache, Raised(failure))
      case Entries(entries) =>
        if size < 0 then Reply(cache, Raised(ValueError))
        else
          var paths := Take(entries, size);
          Reply(cache[key := paths], Ok(paths))
  }

  /** Once a call has succeeded, a repeated call with the same path and size
      returns the same list without consulting the filesystem, even if the
      directory has changed meanwhile. */
  lemma RepeatHits(cache: Cache, first: string -> Listing, later: string -> Listing, path: string, size: int)
    requires ListDir(cache, first, path, size).result.Ok?
    ensures var r1 := ListDir(cache, first, path, size);
            ListDir(r1.cache, later, path, size) == Reply(r1.cache, r1.result)
  {
  }

  /** One `listdir` request, with the filesystem as it is at that moment. */
  datatype Request = Request(listDir: string -> Listing, path: string, size: int)

  function Run(cache: Cache, requests: seq<Request>): Cache
    decreases |requests|
  {
    if |requests| == 0 then cache
    else
      var q := requests[0];
      Run(ListDir(cache, q.listDir, q.path, q.size).cache, requests[1..])
  }

  /** Over any sequence of calls the cache only grows, no stored list is ever
      replaced, and every stored list stays within the size of its key. */
  lemma {:induction false} RunKeepsEntries(cache: Cache, requests: seq<Request>)
    requires Coherent(cache)
    ensures Coherent(Run(cache, requests))
    ensures forall k :: k in cache ==> k in Run(cache, requests) && Run(cache, requests)[k] == cache[k]
    decreases |requests|
  {
    if |requests| > 0 {
      var q := requests[0];
      var next := ListDir(cache, q.listDir, q.path, q.size).cache;
      RunKeepsEntries(next, requests[1..]);
    }
  }

  /** What each call of a run returned or raised, in order. */
  function Replies(cache: Cache, requests: seq<Request>): (r: seq<Result<seq<string>>>)
    ensures |r| == |requests|
    decreases |requests|
  {
    if |requests| == 0 then []
    else
      var q := requests[0];
      var reply := ListDir(cache, q.listDir, q.path, q.size);
      [reply.result] + Replies(reply.cache, requests[1..])
  }

  /** A stored list is what every later call with its key returns. */
  lemma {:induction false} StoredAnswers(cache: Cache, requests: seq<Request>, key: Key)
    requires key in cache
    ensures forall j :: 0 <= j < |requests| && (requests[j].path, requests[j].size) == key ==>
              Replies(cache, requests)[j] == Ok(cache[key])
    decreases |requests|
  {
    if |requests| > 0 {
      var q := requests[0];
      var next := ListDir(cache, q.listDir, q.path, q.size).cache;
      StoredAnswers(next, requests[1..], key);
      forall j | 0 < j < |requests| && (requests[j].path, requests[j].size) == key
        ensures Replies(cache, requests)[j] == Ok(cache[key])
      {
        assert requests[1..][j - 1] == requests[j];
      }
    }
  }

  /** Cache coherence: within a run, once a call with some path and size has
      succeeded, every later call with the same path and size returns the
      same list, whatever the filesystem says by then. */
  lemma {:induction false} SameKeySameAnswer(cache: Cache, requests: seq<Request>, i: nat, j: nat)
    requires i < j < |requests|
    requires (requests[i].path, requests[i].size) == (requests[j].path, requests[j].size)
    requires Replies(cache, requests)[i].Ok?
    ensures Replies(cache, requests)[j] == Replies(cache, requests)[i]
    decreases i
  {
    var q := requests[0];
    var reply := ListDir(cache, q.listDir, q.path, q.size);
    assert requests[1..][j - 1] == requests[j];
    if i == 0 {
      StoredAnswers(reply.cache, requests[1..], (q.path, q.size));
    } else {
      assert requests[1..][i - 1] == requests[i];
      SameKeySameAnswer(reply.cache, requests[1..], i - 1, j - 1);
    }
  }
}

=== FILE: lsdate.dfy ===
/** `InfoBar.datetime_to_ls_format`: the modification time in the style of
    `ls -la`. The current year is a parameter (the source reads the clock). */
module LsDate {
  import opened Wrappers

  /** The fields of a `datetime` the format uses. */
  datatype DateTime = DateTime(year: int, month: int, day: int, hour: int, minute: int)

  /** The ranges a Python `datetime` guarantees. */
  predicate Valid(d: DateTime)
  {
    && 1 <= d.year <= 9999
    && 1 <= d.month <= 12
    && 1 <= d.day <= 31
    && 0 <= d.hour <= 23
    && 0 <= d.minute <= 59
  }

  /** The two `strftime` formats: "%d %b %H:%M" and "%d %b %Y". */
  datatype Style = DayMonthClock | DayMonthYear

  /** Dates in the current year show the time of day, others the year. */
  function StyleFor(d: DateTime, currentYear: int): Style
  {
    if d.year == currentYear then DayMonthClock else DayMonthYear
  }

  function Digit(n: nat): char
    requires n < 10
  {
    ('0' as int + n) as char
  }

  predicate IsDigit(c: char)
  {
    '0' <= c <= '9'
  }

  function DigitValue(c: char): nat
    requires IsDigit(c)
  {
    c as int - '0' as int
  }

  /** `%d`, `%H`, `%M`: two digits, zero-padded. */
  function Pad2(n: nat): string
    requires n < 100
  {
    [Digit(n / 10), Digit(n % 10)]
  }

  /** `%Y`: the year in decimal, without padding. */
  function Decimal(n: nat): (r: string)
    ensures 1 <= |r|
    ensures n < 10 ==> |r| == 1
    ensures n < 100 ==> |r| <= 2
    ensures n < 1000 ==> |r| <= 3
    ensures n < 10000 ==> |r| <= 4
    ensures forall i :: 0 <= i < |r| ==> IsDigit(r[i])
  {
    if n < 10 then [Digit(n)] else Decimal(n / 10) + [Digit(n % 10)]
  }

  /** The value of a string of decimal digits. */
  function DecimalValue(s: string): nat
    requires forall i :: 0 <= i < |s| ==> IsDigit(s[i])
  {
    if |s| == 0 then 0 else DecimalValue(s[..|s| - 1]) * 10 + DigitValue(s[|s| - 1])
  }

  /** `%b` in the C locale. */
  const MonthNames: seq<string> :=
    ["Jan", "Feb", "Mar", "Apr", "May", "Jun", "Jul", "Aug", "Sep", "Oct", "Nov", "Dec"]

  function MonthNumber(name: string): nat
  {
    if name == "Jan" then 1 else if name == "Feb" then 2 else if name == "Mar" then 3
    else if name == "Apr" then 4 else if name == "May" then 5 else if name == "Jun" then 6
    else if name == "Jul" then 7 else if name == "Aug" then 8 else if name == "Sep" then 9
    else if name == "Oct" then 10 else if name == "Nov" then 11 else if name == "Dec" then 12
    else 0
  }

  /** `datetime_to_ls_format(d)` when the clock says `currentYear`. */
  function LsFormat(d: DateTime, currentYear: int): (r: string)
    requires Valid(d)
    ensures d.year == currentYear <==> |r| == 12
  {
    var dayMonth := Pad2(d.day) + " " + MonthNames[d.month - 1] + " ";
    match StyleFor(d, currentYear)
    case DayMonthClock => dayMonth + Pad2(d.hour) + ":" + Pad2(d.minute)
    case DayMonthYear => dayMonth + Decimal(d.year)
  }

  /** What a formatted date states. */
  datatype Fields =
    | ClockFields(day: nat, month: nat, hour: nat, minute: nat)
    | YearFields(day: nat, month: nat, year: nat)

  /** Reads a formatted date back: twelve characters with a colon are the
      clock form, anything else the year form. */
  function ParseLs(s: string): Option<Fields>
  {
    if |s| < 8 || !IsDigit(s[0]) || !IsDigit(s[1]) then None
    else
      var day := DigitValue(s[0]) * 10 + DigitValue(s[1]);
      var month := MonthNumber(s[3..6]);
      if |s| == 12 && s[9] == ':' && IsDigit(s[7]) && IsDigit(s[8]) && IsDigit(s[10]) && IsDigit(s[11]) then
        Some(ClockFields(day, month,
                         DigitValue(s[7]) * 10 + DigitValue(s[8]),
                         DigitValue(s[10]) * 10 + DigitValue(s[11])))
      else if forall i :: 7 <= i < |s| ==> IsDigit(s[i]) then
        Some(YearFields(day, month, DecimalValue(s[7..])))
      else None
  }

  lemma {:induction false} DecimalRoundTrip(n: nat)
    ensures DecimalValue(Decimal(n)) == n
  {
    if n >= 10 {
      DecimalRoundTrip(n / 10);
      var r := Decimal(n);
      assert r[..|r| - 1] == Decimal(n / 10);
    }
  }

  lemma MonthRoundTrip(m: int)
    requires 1 <= m <= 12
    ensures MonthNumber(MonthNames[m - 1]) == m
  {
  }

  lemma Pad2RoundTrip(n: nat)
    requires n < 100
    ensures IsDigit(Pad2(n)[0]) && IsDigit(Pad2(n)[1])
    ensures DigitValue(Pad2(n)[0]) * 10 + DigitValue(Pad2(n)[1]) == n
  {
  }

  /** The formatted date carries the day, month and, for the current year,
      the time of day, otherwise the year: reading it back gives them. */
  lemma FormatRoundTrip(d: DateTime, currentYear: int)
    requires Valid(d)
    ensures ParseLs(LsFormat(d, currentYear)) ==
              Some(if d.year == currentYear then ClockFields(d.day, d.month, d.hour, d.minute)
                   else YearFields(d.day, d.month, d.year))
  {
    var s := LsFormat(d, currentYear);
    var name := MonthNames[d.month - 1];
    Pad2RoundTrip(d.day);
    MonthRoundTrip(d.month);
    assert s[0..2] == Pad2(d.day);
    assert s[3..6] == name;
    if d.year == currentYear {
      Pad2RoundTrip(d.hour);
      Pad2RoundTrip(d.minute);
      assert s[7..9] == Pad2(d.hour);
      assert s[10..12] == Pad2(d.minute);
    } else {
      DecimalRoundTrip(d.year);
      assert s[7..] == Decimal(d.year);
      assert |s| != 12;
    }
  }
}

=== FILE: navigator.dfy ===
/** `PathNavigator`: the top-level state (root path, the paths handed to the
    tree, the breadcrumb, the info bar and the preview, and whether the
    preview is shown) and the transitions the user drives. */
module Navigator {
  import opened Wrappers
  import opened Paths
  import opened Oracles

  datatype NavState = NavState(
    path: string,          // PathNavigator.path, after validate_path
    treePath: string,      // DirectoryTree.path
    displayPath: string,   // PathDisplay.path
    infoPath: string,      // InfoBar.path
    previewPath: string,   // PreviewWindow.path
    showPreview: bool      // PathNavigator.show_preview
  )

  /** Notifications, as emitted events; the path is the one the text quotes. */
  datatype Notice =
    | NotADirectory(quoted: string)  // "'<quoted>' is not a directory", severity error
    | ReloadedContents               // "Reloaded directory contents"
    | Reloaded(quoted: string)       // "Reloaded '<quoted>'"

  datatype Step = Step(state: NavState, notices: seq<Notice>)

  /** `validate_path`: the stored root is the home-expanded, resolved path. */
  function Validated(fs: FileSystem, f: Flavor, target: PurePath): string
  {
    fs.resolve(Render(ExpandUser(target, fs.home), f))
  }

  /** `on_new_path` for a `NewPath(Path(target))` message. */
  function OnNewPath(fs: FileSystem, f: Flavor, s: NavState, target: string): (r: Step)
    // a target that is not a directory as written changes nothing, and the
    // notice quotes the current root
    ensures !fs.isDir(Render(Parse(target, f), f)) ==>
              r == Step(s, [NotADirectory(s.path)])
    // a directory becomes the root (validated), and is handed as written to
    // the tree and the breadcrumb; nothing else changes
    ensures fs.isDir(Render(Parse(target, f), f)) ==>
              && r.notices == []
              && r.state.path == Validated(fs, f, Parse(target, f))
              && r.state.treePath == Render(Parse(target, f), f)
              && r.state.displayPath == Render(Parse(target, f), f)
              && r.state.(path := s.path, treePath := s.treePath, displayPath := s.displayPath) == s
  {
    var p := Parse(target, f);
    if !fs.isDir(Render(p, f)) then Step(s, [NotADirectory(s.path)])
    else Step(s.(path := Validated(fs, f, p), treePath := Render(p, f), displayPath := Render(p, f)), [])
  }

  /** Posting the same path again after it was accepted changes nothing more. */
  lemma OnNewPathIdempotent(fs: FileSystem, f: Flavor, s: NavState, target: string)
    ensures var r := OnNewPath(fs, f, s, target);
            OnNewPath(fs, f, r.state, target).state == r.state
  {
  }

  /** The preview job a highlight starts, if any. */
  datatype Highlight = Highlight(state: NavState, previewJob: Option<string>)

  /** `on_node_highlighted`: a node with data hands its path to the info bar
      and the preview; the preview starts a job only when its path changes
      (a reactive attribute calls its watcher only on a new value). */
  function OnNodeHighlighted(s: NavState, data: Option<string>): (r: Highlight)
    ensures data.None? ==> r == Highlight(s, None)
    ensures data.Some? ==>
              && r.state == s.(infoPath := data.value, previewPath := data.value)
              && (r.previewJob.Some? <==> data.value != s.previewPath)
              && (r.previewJob.Some? ==> r.previewJob.value == data.value)
  {
    match data
    case None => Highlight(s, None)
    case Some(path) =>
      Highlight(s.(infoPath := path, previewPath := path),
                if path != s.previewPath then Some(path) else None)
  }

  /** Highlighting the same node again hands on the same path and starts no
      preview job. */
  lemma HighlightTwice(s: NavState, data: Option<string>)
    ensures var h := OnNodeHighlighted(s, data);
            && OnNodeHighlighted(h.state, data).previewJob == None
            && OnNodeHighlighted(h.state, data).state == h.state
  {
  }

  /** `action_toggle_preview` */
  function TogglePreview(s: NavState): (r: NavState)
    ensures r.showPreview != s.showPreview
    ensures r.(showPreview := s.showPreview) == s
  {
    s.(showPreview := !s.showPreview)
  }

  /** Toggling twice restores the state. */
  lemma ToggleTwice(s: NavState)
    ensures TogglePreview(TogglePreview(s)) == s
  {
  }

  /** Where the tree cursor is: nowhere, or on a node whose parent's data
      path is known (`None` when the parent or its data is missing). */
  datatype Cursor = NoCursor | OnNode(parentPath: Option<string>)

  /** What `action_reload` reloads. */
  datatype ReloadTarget = WholeTree | NodeAt(path: string) | AssertionFails

  datatype Reload = Reload(target: ReloadTarget, notices: seq<Notice>)

  /** `action_reload`: the whole tree without a cursor, otherwise the
      cursor's parent node; the navigator state is not touched. */
  function ActionReload(cursor: Cursor): (r: Reload)
    ensures r.target == WholeTree <==> cursor == NoCursor
    ensures r.target.NodeAt? <==> cursor.OnNode? && cursor.parentPath.Some?
    ensures r.target.NodeAt? ==> r.target.path == cursor.parentPath.value && r.notices == [Reloaded(r.target.path)]
    ensures r.target == WholeTree ==> r.notices == [ReloadedContents]
    ensures r.target == AssertionFails ==> r.notices == []
  {
    match cursor
    case NoCursor => Reload(WholeTree, [ReloadedContents])
    case OnNode(parent) =>
      match parent
      case None => Reload(AssertionFails, [])
      case Some(path) => Reload(NodeAt(path), [Reloaded(path)])
  }

  // ---------------------------------------------------------------------
  // Findings about on_new_path, and the corrected transition.

  /** The rejection notice quotes the current root, which is a directory,
      instead of the rejected path: rejecting "/etc/passwd" while at
      "/home/u" reports "'/home/u' is not a directory". */
  lemma RejectionQuotesCurrentRoot()
    ensures var fs := FileSystem(p => p == "/home/u", p => Entries([]),
                                 PurePath(true, ["home", "u"]), p => p);
            var s := NavState("/home/u", "/home/u", "/home/u", "", "", false);
            && fs.isDir(s.path)
            && OnNewPath(fs, Posix, s, "/etc/passwd").notices == [NotADirectory("/home/u")]
  {
    var target := PurePath(true, ["etc", "passwd"]);
    assert Strings.Join(target.parts, '/') == "etc/passwd";
    assert Render(target, Posix) == "/etc/passwd";
    ParseRender(target, Posix);
  }

  /** A home directory "/home/u" holding a directory "Documents". */
  function HomeWithDocuments(): FileSystem
  {
    FileSystem(p => p == "/home/u" || p == "/home/u/Documents", p => Entries([]),
               PurePath(true, ["home", "u"]), p => p)
  }

  /** The browser rooted at "/home/u". */
  const AtHome := NavState("/home/u", "/home/u", "/home/u", "", "", false)

  /** The directory check is made on the path as typed, before "~" is
      expanded, while the path editor's validator expands it first: with
      home "/home/u" and "/home/u/Documents" a directory, the target
      "~/Documents" is rejected although the validator accepts it. */
  lemma TildeTargetRejected()
    ensures HomeWithDocuments().isDir(AtHome.path)
    ensures HomeWithDocuments().isDir(Validated(HomeWithDocuments(), Posix, Parse("~/Documents", Posix)))
    ensures OnNewPath(HomeWithDocuments(), Posix, AtHome, "~/Documents") == Step(AtHome, [NotADirectory("/home/u")])
  {
    TildeTargetNotADirectoryAsTyped();
    TildeTargetADirectoryOnceExpanded();
  }

  lemma TildeTargetNotADirectoryAsTyped()
    ensures !HomeWithDocuments().isDir(Render(Parse("~/Documents", Posix), Posix))
  {
    TildeDocumentsParses();
    TildeIsNoAbsolutePath("~/Documents");
  }

  lemma TildeTargetADirectoryOnceExpanded()
    ensures Validated(HomeWithDocuments(), Posix, Parse("~/Documents", Posix)) == "/home/u/Documents"
  {
    var fs := HomeWithDocuments();
    TildeDocumentsParses();
    var p := Parse("~/Documents", Posix);
    assert ExpandUser(p, fs.home) == PurePath(true, ["home", "u", "Documents"]);
    HomeDocumentsRenders();
  }

  /** A string starting with "~" is neither of the example's directories. */
  lemma TildeIsNoAbsolutePath(s: string)
    requires |s| > 0 && s[0] == '~'
    ensures s != "/home/u" && s != "/home/u/Documents"
  {
    assert "/home/u"[0] == '/' && "/home/u/Documents"[0] == '/';
  }

  lemma TildeDocumentsParses()
    ensures Parse("~/Documents", Posix) == PurePath(false, ["~", "Documents"])
    ensures Render(PurePath(false, ["~", "Documents"]), Posix) == "~/Documents"
  {
    var target := PurePath(false, ["~", "Documents"]);
    assert Strings.Join(target.parts, '/') == "~/Documents";
    ParseRender(target, Posix);
  }

  lemma HomeDocumentsRenders()
    ensures Render(PurePath(true, ["home", "u", "Documents"]), Posix) == "/home/u/Documents"
  {
    var expanded := ["home", "u", "Documents"];
    assert expanded[1..] == ["u", "Documents"] && expanded[1..][1..] == ["Documents"];
    assert Strings.Join(["Documents"], '/') == "Documents";
    assert Strings.Join(["u", "Documents"], '/') == "u/Documents";
  }

  /** `on_new_path` as evidently intended: check the path the root would
      become, hand that same path to the tree and the breadcrumb, and quote
      the rejected path. */
  function OnNewPathIntended(fs: FileSystem, f: Flavor, s: NavState, target: string): (r: Step)
    ensures var p := Parse(target, f);
            !fs.isDir(Validated(fs, f, p)) ==> r == Step(s, [NotADirectory(Render(p, f))])
    ensures var p := Parse(target, f);
            fs.isDir(Validated(fs, f, p)) ==>
              && r.notices == []
              && r.state == s.(path := Validated(fs, f, p), treePath := Validated(fs, f, p), displayPath := Validated(fs, f, p))
  {
    var p := Parse(target, f);
    var root := Validated(fs, f, p);
    if !fs.isDir(root) then Step(s, [NotADirectory(Render(p, f))])
    else Step(s.(path := root, treePath := root, displayPath := root), [])
  }

  /** With the intended check the root, and the path the tree shows, are
      always directories, and every rejection quotes a path that is indeed
      not a directory once expanded. */
  lemma IntendedKeepsRootADirectory(fs: FileSystem, f: Flavor, s: NavState, target: string)
    requires fs.isDir(s.path) && fs.isDir(s.treePath)
    ensures var r := OnNewPathIntended(fs, f, s, target);
            && fs.isDir(r.state.path)
            && fs.isDir(r.state.treePath)
            && forall i :: 0 <= i < |r.notices| ==>
                 r.notices[i].NotADirectory? &&
                 !fs.isDir(fs.resolve(Render(ExpandUser(Parse(r.notices[i].quoted, f), fs.home), f)))
  {
    var p := Parse(target, f);
    if !fs.isDir(Validated(fs, f, p)) {
      ParseRender(p, f);
    }
  }

  /** The intended check accepts exactly the targets whose expanded,
      resolved form is a directory: what the path editor's validator accepts. */
  lemma IntendedAcceptsValidated(fs: FileSystem, f: Flavor, s: NavState, target: string)
    ensures OnNewPathIntended(fs, f, s, target).notices == [] <==>
              fs.isDir(Validated(fs, f, Parse(target, f)))
  {
  }
}

=== FILE: oracles.dfy ===
/** The filesystem, seen by the browser only through these queries. Each is
    a total function from a path string, fixed for the duration of one
    operation. */
module Oracles {
  import opened Paths

  /** The exceptions the modelled code can let escape or catch. */
  datatype Failure =
    | FileNotFound   // FileNotFoundError
    | OtherOsError   // PermissionError, NotADirectoryError, ...
    | ValueError     // raised by itertools.islice for a negative stop

  datatype Result<+T> = Ok(value: T) | Raised(failure: Failure)

  /** The outcome of `path.iterdir()`: the entries in iteration order, or
      the OS error it raises. */
  datatype Listing = Entries(paths: seq<string>) | ListFailed(failure: Failure)

  datatype FileSystem = FileSystem(
    isDir: string -> bool,        // Path.is_dir
    listDir: string -> Listing,   // Path.iterdir
    home: PurePath,               // Path("~").expanduser()
    resolve: string -> string     // Path.resolve
  )
}

=== FILE: paths.dfy ===
/** Pure path manipulation in the manner of Python's `pathlib.PurePath`,
    parameterised by the separator of the flavour (POSIX or Windows). */
module Paths {
  import opened Strings

  datatype Flavor = Posix | Windows

  function Sep(f: Flavor): char
  {
    match f
    case Posix => '/'
    case Windows => '\\'
  }

  /** A parsed path: whether it starts at the root, and its components in
      order (never empty, never ".", never containing the separator). */
  datatype PurePath = PurePath(rooted: bool, parts: seq<string>)

  predicate Component(part: string, sep: char)
  {
    part != "" && part != "." && sep !in part
  }

  predicate WellFormed(p: PurePath, f: Flavor)
  {
    forall i :: 0 <= i < |p.parts| ==> Component(p.parts[i], Sep(f))
  }

  /** Drops the empty and "." segments, as `pathlib` does when parsing. */
  function Keep(segs: seq<string>): (r: seq<string>)
    ensures forall i :: 0 <= i < |r| ==> r[i] != "" && r[i] != "." && r[i] in segs
  {
    if |segs| == 0 then []
    else (if segs[0] == "" || segs[0] == "." then [] else [segs[0]]) + Keep(segs[1..])
  }

  /** `Path(s)` */
  function Parse(s: string, f: Flavor): (p: PurePath)
    ensures WellFormed(p, f)
  {
    PurePath(|s| > 0 && s[0] == Sep(f), Keep(Split(s, Sep(f))))
  }

  /** `str(p)` */
  function Render(p: PurePath, f: Flavor): string
  {
    if p.rooted then [Sep(f)] + Join(p.parts, Sep(f))
    else if |p.parts| == 0 then "."
    else Join(p.parts, Sep(f))
  }

  /** `p.name`: the final component, or "" when there is none. */
  function Name(p: PurePath): string
  {
    if |p.parts| == 0 then "" else p.parts[|p.parts| - 1]
  }

  /** `p.parent`: the path without its final component; a path with no
      components is its own parent. */
  function Parent(p: PurePath): PurePath
  {
    if |p.parts| == 0 then p else PurePath(p.rooted, p.parts[..|p.parts| - 1])
  }

  /** `p.expanduser()` for the bare "~" form: a relative path whose first
      component is "~" has that component replaced by the home directory. */
  function ExpandUser(p: PurePath, home: PurePath): (r: PurePath)
    ensures !(!p.rooted && |p.parts| > 0 && p.parts[0] == "~") ==> r == p
    ensures !p.rooted && |p.parts| > 0 && p.parts[0] == "~" ==>
              r.rooted == home.rooted && r.parts == home.parts + p.parts[1..]
  {
    if !p.rooted && |p.parts| > 0 && p.parts[0] == "~" then
      PurePath(home.rooted, home.parts + p.parts[1..])
    else p
  }

  /** Expanding an expanded path changes nothing more, the home directory
      being absolute. */
  lemma ExpandTwice(p: PurePath, home: PurePath)
    requires home.rooted
    ensures ExpandUser(ExpandUser(p, home), home) == ExpandUser(p, home)
  {
  }

  lemma {:induction false} KeepComponents(segs: seq<string>)
    requires forall i :: 0 <= i < |segs| ==> segs[i] != "" && segs[i] != "."
    ensures Keep(segs) == segs
    decreases |segs|
  {
    if |segs| > 0 {
      KeepComponents(segs[1..]);
      assert segs == [segs[0]] + segs[1..];
    }
  }

  /** Parsing what `str` prints gives back the same path. */
  lemma ParseRender(p: PurePath, f: Flavor)
    requires WellFormed(p, f)
    ensures Parse(Render(p, f), f) == p
  {
    if p.rooted {
      ParseRooted(p, f);
    } else if |p.parts| == 0 {
      SplitWithoutSep(".", Sep(f));
    } else {
      ParseRelative(p, f);
    }
  }

  lemma ParseRooted(p: PurePath, f: Flavor)
    requires WellFormed(p, f) && p.rooted
    ensures Parse(Render(p, f), f) == p
  {
    var sep := Sep(f);
    var j := Join(p.parts, sep);
    var s := [sep] + j;
    assert s == [] + [sep] + j;
    SplitAfterPiece([], j, sep);
    assert Split(s, sep) == [[]] + Split(j, sep);
    if |p.parts| == 0 {
      assert Split(j, sep) == [[]];
      assert Keep([[], []]) == [];
    } else {
      SplitJoin(p.parts, sep);
      KeepComponents(p.parts);
      assert Keep([[]] + p.parts) == Keep(p.parts);
    }
  }

  lemma ParseRelative(p: PurePath, f: Flavor)
    requires WellFormed(p, f) && !p.rooted && |p.parts| > 0
    ensures Parse(Render(p, f), f) == p
  {
    var sep := Sep(f);
    SplitJoin(p.parts, sep);
    KeepComponents(p.parts);
    assert Component(p.parts[0], sep);
    JoinHead(p.parts, sep);
  }

  lemma JoinHead(parts: seq<string>, sep: char)
    requires |parts| > 0 && |parts[0]| > 0
    ensures |Join(parts, sep)| > 0 && Join(parts, sep)[0] == parts[0][0]
  {
    if |parts| > 1 {
      assert Join(parts, sep) == parts[0] + ([sep] + Join(parts[1..], sep));
    }
  }
}

=== FILE: pathscreen.dfy ===
/** `PathScreen.__init__`: the value the "go to" editor starts with. */
module PathScreen {
  import opened Strings
  import opened Paths

  /** `path.rstrip(sep) + sep`: the path with its trailing separators
      replaced by exactly one. */
  function InitialValue(f: Flavor, path: string): (r: string)
    ensures |r| > 0 && r[|r| - 1] == Sep(f)
    ensures |r| == 1 || r[|r| - 2] != Sep(f)
    ensures |r| - 1 <= |path| && r[..|r| - 1] == path[..|r| - 1]
    ensures forall i :: |r| - 1 <= i < |path| ==> path[i] == Sep(f)
  {
    RStrip(path, Sep(f)) + [Sep(f)]
  }

  /** Normalising an already normalised value changes nothing. */
  lemma InitialValueIdempotent(f: Flavor, path: string)
    ensures InitialValue(f, InitialValue(f, path)) == InitialValue(f, path)
  {
    var sep := Sep(f);
    var q := RStrip(path, sep);
    assert (q + [sep])[..|q|] == q;
    assert RStrip(q + [sep], sep) == RStrip(q, sep);
  }

  /** A path without a trailing separator just gains one. */
  lemma InitialValueAppends(f: Flavor, path: string)
    requires |path| == 0 || path[|path| - 1] != Sep(f)
    ensures InitialValue(f, path) == path + [Sep(f)]
  {
  }
}

=== FILE: preview.dfy ===
/** The preview pane: what one preview job does to the pane's content and
    to its "preview unavailable" flag, given what the job observed (whether
    the path is a file, what reading it gave, whether the job was cancelled,
    whether the highlighter accepted the text). */
module Preview {
  import opened Wrappers
  import opened Strings

  /** What the pane's `#content` widget shows. */
  datatype Content =
    | Blank                                    // the initial empty Static
    | Message(text: string)                    // plain text
    | Highlighted(code: string, lexer: string) // a Syntax renderable

  /** The content and whether the pane carries `-preview-unavailable`. */
  datatype Pane = Pane(content: Content, unavailable: bool)

  const NotAvailable := "Preview not available"

  /** A freshly composed pane. */
  const Initial := Pane(Blank, false)

  /** The flag is set exactly when the placeholder message is shown. */
  predicate Consistent(p: Pane)
  {
    p.unavailable <==> p.content == Message(NotAvailable)
  }

  /** A freshly composed pane is consistent. */
  lemma InitialConsistent()
    ensures Consistent(Initial)
  {
  }

  /** What one `update_syntax` job (tree.py) observed. `lines` is `None` when
      opening or reading raised; `lexer` is what `Syntax.guess_lexer` chose;
      `syntaxOk` is false when constructing the `Syntax` raised. */
  datatype Observation = Observation(
    isFile: bool,
    lines: Option<seq<string>>,
    cancelled: bool,
    lexer: string,
    syntaxOk: bool
  )

  /** `PreviewWindow.update_syntax` (tree.py). */
  function UpdateSyntax(pane: Pane, o: Observation): (r: Pane)
    // not a file: nothing changes
    ensures !o.isFile ==> r == pane
    // a failed read shows the placeholder, cancelled or not
    ensures o.isFile && o.lines.None? ==> r == Pane(Message(NotAvailable), true)
    // a read that succeeded is dropped if the job was cancelled meanwhile,
    // or if the highlighter refused the text
    ensures o.isFile && o.lines.Some? && (o.cancelled || !o.syntaxOk) ==> r == pane
    // otherwise the joined lines are shown highlighted and the flag cleared
    ensures o.isFile && o.lines.Some? && !o.cancelled && o.syntaxOk ==>
              r == Pane(Highlighted(Concat(o.lines.value), o.lexer), false)
    ensures Consistent(pane) ==> Consistent(r)
  {
    if !o.isFile then pane
    else
      match o.lines
      case None => Pane(Message(NotAvailable), true)
      case Some(lines) =>
        if o.cancelled then pane
        else if !o.syntaxOk then pane
        else Pane(Highlighted(Concat(lines), o.lexer), false)
  }

  /** How many bytes the Windows variant reads of a file it shows as plain text. */
  const ReadLimit := 1024 * 64

  /** What one `get_syntax` job (windows/tree.py) observed. `fileType` is the
      mimetype guessed from the name; `lines` the text read in the "text/"
      branch and `bytes` the whole file for the other branch, each `None`
      when opening or reading raised; `decode` decodes bytes with the
      guessed encoding (or UTF-8), `None` when decoding raises. */
  datatype WindowsObservation = WindowsObservation(
    isFile: bool,
    fileType: Option<string>,
    lines: Option<seq<string>>,
    bytes: Option<seq<bv8>>,
    decode: seq<bv8> -> Option<string>,
    lexer: string,
    syntaxOk: bool
  )

  /** A job either updates the pane, or an exception escapes it. */
  datatype Outcome = Applied(pane: Pane) | Escaped

  /** `binary_file.read(64 KiB)` */
  function Head(bytes: seq<bv8>): (r: seq<bv8>)
    ensures |r| <= ReadLimit && |r| <= |bytes| && r == bytes[..|r|]
    ensures |bytes| <= ReadLimit ==> r == bytes
  {
    if |bytes| <= ReadLimit then bytes else bytes[..ReadLimit]
  }

  predicate TextType(fileType: Option<string>)
  {
    fileType.Some? && StartsWith(fileType.value, "text/")
  }

  /** `PreviewWindow.get_syntax` (windows/tree.py). There is no cancellation
      check; read errors are not caught. */
  function GetSyntax(pane: Pane, o: WindowsObservation): (r: Outcome)
    // not a file: nothing changes
    ensures !o.isFile ==> r == Applied(pane)
    // "text/" types: highlighted with the guessed lexer, unless the
    // highlighter refuses, which leaves the pane as it was
    ensures o.isFile && TextType(o.fileType) && o.lines.Some? ==>
              r == Applied(if o.syntaxOk then Pane(Highlighted(Concat(o.lines.value), o.lexer), false) else pane)
    // other types: the first 64 KiB decoded as plain text, or the placeholder
    ensures o.isFile && !TextType(o.fileType) && o.bytes.Some? ==>
              r == Applied(match o.decode(Head(o.bytes.value))
                           case None => Pane(Message(NotAvailable), true)
                           case Some(text) => Pane(Highlighted(text, "text"), false))
    // a read that raises escapes the job
    ensures r == Escaped <==>
              o.isFile && (if TextType(o.fileType) then o.lines.None? else o.bytes.None?)
    ensures Consistent(pane) && r.Applied? ==> Consistent(r.pane)
  {
    if !o.isFile then Applied(pane)
    else if TextType(o.fileType) then
      match o.lines
      case None => Escaped
      case Some(lines) =>
        if o.syntaxOk then Applied(Pane(Highlighted(Concat(lines), o.lexer), false))
        else Applied(pane)
    else
      match o.bytes
      case None => Escaped
      case Some(bytes) =>
        match o.decode(Head(bytes))
        case None => Applied(Pane(Message(NotAvailable), true))
        case Some(text) => Applied(Pane(Highlighted(text, "text"), false))
  }

  /** Only the first 64 KiB of a file matter to the Windows preview: two
      files that agree on them are previewed alike. */
  lemma ReadsAtMostLimit(pane: Pane, o: WindowsObservation, other: seq<bv8>)
    requires o.bytes.Some?
    requires Head(other) == Head(o.bytes.value)
    ensures GetSyntax(pane, o) == GetSyntax(pane, o.(bytes := Some(other)))
  {
  }

  /** Repeating a job with the same observation changes nothing further. */
  lemma UpdateSyntaxIdempotent(pane: Pane, o: Observation)
    ensures UpdateSyntax(UpdateSyntax(pane, o), o) == UpdateSyntax(pane, o)
  {
  }

  lemma GetSyntaxIdempotent(pane: Pane, o: WindowsObservation)
    requires GetSyntax(pane, o).Applied?
    ensures GetSyntax(GetSyntax(pane, o).pane, o) == GetSyntax(pane, o)
  {
  }

  /** The pane after a series of jobs, each applied to the previous result. */
  function RunUpdates(pane: Pane, jobs: seq<Observation>): Pane
    decreases |jobs|
  {
    if |jobs| == 0 then pane else RunUpdates(UpdateSyntax(pane, jobs[0]), jobs[1..])
  }

  /** After any series of jobs from a consistent pane (the initial one is),
      the flag is still set exactly when the placeholder is shown. */
  lemma {:induction false} RunKeepsConsistent(pane: Pane, jobs: seq<Observation>)
    requires Consistent(pane)
    ensures Consistent(RunUpdates(pane, jobs))
    decreases |jobs|
  {
    if |jobs| > 0 {
      RunKeepsConsistent(UpdateSyntax(pane, jobs[0]), jobs[1..]);
    }
  }
}

=== FILE: strings.dfy ===
/** The Python `str` operations the directory browser relies on, over `seq<char>`. */
module Strings {
  import opened Wrappers

  /** ASCII lower-casing of one character; stands in for `str.lower`. */
  function LowerChar(c: char): char
  {
    if 'A' <= c <= 'Z' then (c as int + 32) as char else c
  }

  function Lower(s: string): (r: string)
    ensures |r| == |s|
    ensures forall i :: 0 <= i < |s| ==> r[i] == LowerChar(s[i])
  {
    seq(|s|, i requires 0 <= i < |s| => LowerChar(s[i]))
  }

  /** `s.startswith(prefix)` */
  predicate StartsWith(s: string, prefix: string)
  {
    |prefix| <= |s| && s[..|prefix|] == prefix
  }

  /** `s.split(sep)` with an explicit one-character separator: never empty,
      and no piece contains the separator. */
  function Split(s: string, sep: char): (parts: seq<string>)
    ensures |parts| >= 1
    ensures forall i :: 0 <= i < |parts| ==> sep !in parts[i]
    decreases |s|
  {
    if |s| == 0 then [[]]
    else
      var rest := Split(s[1..], sep);
      if s[0] == sep then [[]] + rest
      else [[s[0]] + rest[0]] + rest[1..]
  }

  /** `sep.join(parts)` */
  function Join(parts: seq<string>, sep: char): string
  {
    if |parts| == 0 then []
    else if |parts| == 1 then parts[0]
    else parts[0] + [sep] + Join(parts[1..], sep)
  }

  /** Joining the pieces of a split gives back the original string. */
  lemma {:induction false} JoinSplit(s: string, sep: char)
    ensures Join(Split(s, sep), sep) == s
    decreases |s|
  {
    if |s| > 0 {
      var rest := Split(s[1..], sep);
      JoinSplit(s[1..], sep);
      if s[0] == sep {
        assert Split(s, sep) == [[]] + rest;
        assert Join([[]] + rest, sep) == [] + [sep] + Join(rest, sep);
      } else if |rest| == 1 {
        assert Split(s, sep) == [[s[0]] + rest[0]];
      } else {
        var parts := Split(s, sep);
        assert parts == [[s[0]] + rest[0]] + rest[1..];
        assert parts[1..] == rest[1..];
        assert Join(parts, sep) == [s[0]] + rest[0] + [sep] + Join(rest[1..], sep);
        assert Join(rest, sep) == rest[0] + [sep] + Join(rest[1..], sep);
        assert s == [s[0]] + s[1..];
      }
    }
  }

  lemma {:induction false} SplitWithoutSep(a: string, sep: char)
    requires sep !in a
    ensures Split(a, sep) == [a]
    decreases |a|
  {
    if |a| > 0 {
      SplitWithoutSep(a[1..], sep);
      assert a == [a[0]] + a[1..];
    }
  }

  lemma {:induction false} SplitAfterPiece(a: string, b: string, sep: char)
    requires sep !in a
    ensures Split(a + [sep] + b, sep) == [a] + Split(b, sep)
    decreases |a|
  {
    var s := a + [sep] + b;
    if |a| == 0 {
      assert s[1..] == b;
    } else {
      assert s[1..] == a[1..] + [sep] + b;
      SplitAfterPiece(a[1..], b, sep);
      assert a == [a[0]] + a[1..];
    }
  }

  /** Splitting a join of separator-free pieces gives back the pieces. */
  lemma {:induction false} SplitJoin(parts: seq<string>, sep: char)
    requires |parts| >= 1
    requires forall i :: 0 <= i < |parts| ==> sep !in parts[i]
    ensures Split(Join(parts, sep), sep) == parts
    decreases |parts|
  {
    if |parts| == 1 {
      SplitWithoutSep(parts[0], sep);
    } else {
      SplitJoin(parts[1..], sep);
      SplitAfterPiece(parts[0], Join(parts[1..], sep), sep);
      assert parts == [parts[0]] + parts[1..];
    }
  }

  /** A join of the first k pieces is the text before the k-th separator. */
  lemma {:induction false} JoinAt(parts: seq<string>, k: nat, sep: char)
    requires 1 <= k < |parts|
    ensures Join(parts, sep) == Join(parts[..k], sep) + [sep] + Join(parts[k..], sep)
    decreases k
  {
    if k > 1 {
      JoinAt(parts[1..], k - 1, sep);
      assert parts[1..][..k - 1] == parts[1..k];
      assert parts[1..][k - 1..] == parts[k..];
      assert parts[..k][1..] == parts[1..k];
    }
  }

  /** `s.rstrip(c)` for a single character: the longest prefix of `s` not
      ending in `c`, the removed tail being nothing but `c`. */
  function RStrip(s: string, c: char): (r: string)
    ensures |r| <= |s| && r == s[..|r|]
    ensures |r| == 0 || r[|r| - 1] != c
    ensures forall i :: |r| <= i < |s| ==> s[i] == c
    decreases |s|
  {
    if |s| > 0 && s[|s| - 1] == c then RStrip(s[..|s| - 1], c) else s
  }

  /** `pat` occurs in `s` starting at index `i`. */
  predicate OccursAt(s: string, pat: string, i: nat)
  {
    i + |pat| <= |s| && s[i..i + |pat|] == pat
  }

  /** The first occurrence of `pat` in `s` at or after `from`. */
  function FindFrom(s: string, pat: string, from: nat): (r: Option<nat>)
    ensures r.Some? ==> from <= r.value && OccursAt(s, pat, r.value)
    ensures r.Some? ==> forall i: nat :: from <= i < r.value ==> !OccursAt(s, pat, i)
    ensures r.None? ==> forall i: nat :: from <= i ==> !OccursAt(s, pat, i)
    decreases |s| - from
  {
    if from + |pat| > |s| then None
    else if OccursAt(s, pat, from) then Some(from)
    else FindFrom(s, pat, from + 1)
  }

  /** `s.find(pat)`, with `None` for Python's -1. */
  function IndexOf(s: string, pat: string): Option<nat>
  {
    FindFrom(s, pat, 0)
  }

  /** `s.replace(pat, repl, 1)`: only the first occurrence is replaced. */
  function ReplaceFirst(s: string, pat: string, repl: string): (r: string)
    ensures (forall i: nat :: !OccursAt(s, pat, i)) ==> r == s
    ensures StartsWith(s, pat) ==> r == repl + s[|pat|..]
    ensures forall i: nat :: OccursAt(s, pat, i) && (forall j: nat :: j < i ==> !OccursAt(s, pat, j)) ==>
              r == s[..i] + repl + s[i + |pat|..]
  {
    match IndexOf(s, pat)
    case None => s
    case Some(i) => s[..i] + repl + s[i + |pat|..]
  }

  /** `"".join(pieces)` */
  function Concat(pieces: seq<string>): string
  {
    if |pieces| == 0 then [] else pieces[0] + Concat(pieces[1..])
  }
}

=== FILE: suggester.dfy ===
/** `DirectorySuggester.get_suggestion`: completes a typed path to the
    shortest matching child directory, listing through the cache. */
module Suggester {
  import opened Wrappers
  import opened Strings
  import opened Paths
  import opened Oracles
  import opened DirCache

  /** How many entries `get_suggestion` asks the cache for. */
  const Limit := 100

  /** The directory whose children are offered: the typed path itself when
      `is_dir` holds of it as typed (before "~" is expanded), otherwise its
      parent; either way home-expanded afterwards. */
  function ListedDirectory(fs: FileSystem, f: Flavor, value: string): PurePath
  {
    var path := Parse(value, f);
    ExpandUser(if fs.isDir(Render(path, f)) then path else Parent(path), fs.home)
  }

  /** A child is offered when its lower-cased name starts with the lower-cased
      typed name and it is a directory. */
  predicate Offered(fs: FileSystem, f: Flavor, name: string, child: string)
  {
    StartsWith(Lower(Name(Parse(child, f))), Lower(name)) && fs.isDir(child)
  }

  /** `possible_paths`: every kept child followed by the separator, in
      listing order (`keep` is `Offered` for the typed name). */
  function PossiblePaths(keep: string -> bool, sep: char, children: seq<string>): (r: seq<string>)
    ensures |r| <= |children|
    ensures forall i :: 0 <= i < |r| ==> |r[i]| > 0 && r[i][|r[i]| - 1] == sep
    ensures |r| == 0 <==> forall k :: 0 <= k < |children| ==> !keep(children[k])
    decreases |children|
  {
    if |children| == 0 then []
    else
      (if keep(children[0]) then [children[0] + [sep]] else [])
      + PossiblePaths(keep, sep, children[1..])
  }

  /** The candidates are exactly the kept children, each followed by the
      separator: every candidate comes from a kept child, and every kept
      child gives a candidate. */
  lemma {:induction false} PossiblePathsContents(keep: string -> bool, sep: char, children: seq<string>)
    ensures var r := PossiblePaths(keep, sep, children);
            forall i :: 0 <= i < |r| ==>
              exists k :: 0 <= k < |children| && keep(children[k]) && r[i] == children[k] + [sep]
    ensures var r := PossiblePaths(keep, sep, children);
            forall k :: 0 <= k < |children| && keep(children[k]) ==> children[k] + [sep] in r
    decreases |children|
  {
    if |children| > 0 {
      var rest := children[1..];
      var head := if keep(children[0]) then [children[0] + [sep]] else [];
      var r' := PossiblePaths(keep, sep, rest);
      var r := PossiblePaths(keep, sep, children);
      assert r == head + r';
      PossiblePathsContents(keep, sep, rest);
      forall i | 0 <= i < |r|
        ensures exists k :: 0 <= k < |children| && keep(children[k]) && r[i] == children[k] + [sep]
      {
        if i < |head| {
          assert keep(children[0]) && r[i] == children[0] + [sep];
        } else {
          var k' :| 0 <= k' < |rest| && keep(rest[k']) && r'[i - |head|] == rest[k'] + [sep];
          assert children[k' + 1] == rest[k'];
        }
      }
      forall k | 0 <= k < |children| && keep(children[k])
        ensures children[k] + [sep] in r
      {
        if k > 0 {
          assert children[k] == rest[k - 1];
        }
      }
    }
  }

  /** The index of the element that `xs.sort(key=len)` moves to the front:
      a shortest one, and the earliest of the shortest since the sort is stable. */
  function FirstShortest(xs: seq<string>): (r: nat)
    requires |xs| > 0
    ensures r < |xs|
    ensures forall k :: 0 <= k < |xs| ==> |xs[r]| <= |xs[k]|
    ensures forall k :: 0 <= k < r ==> |xs[k]| > |xs[r]|
    decreases |xs|
  {
    if |xs| == 1 then 0
    else
      var k := 1 + FirstShortest(xs[1..]);
      if |xs[0]| <= |xs[k]| then 0 else k
  }

  /** When the typed value contains "~", the first occurrence of the home
      directory in the suggestion is written back as "~". */
  function RestoreTilde(value: string, home: string, s: string): (r: string)
    ensures '~' !in value ==> r == s
    ensures (forall i: nat :: !OccursAt(s, home, i)) ==> r == s
    ensures '~' in value && StartsWith(s, home) ==> r == "~" + s[|home|..]
    ensures '~' in value ==>
              forall i: nat :: OccursAt(s, home, i) && (forall j: nat :: j < i ==> !OccursAt(s, home, j)) ==>
                r == s[..i] + "~" + s[i + |home|..]
  {
    if '~' in value then ReplaceFirst(s, home, "~") else s
  }

  /** The filter of `possible_paths` for a typed value. */
  function OfferedBy(fs: FileSystem, f: Flavor, value: string): string -> bool
  {
    child => Offered(fs, f, Name(Parse(value, f)), child)
  }

  /** The listing `get_suggestion` works from, and the cache after it. */
  function Listed(fs: FileSystem, f: Flavor, cache: Cache, value: string): Reply<seq<string>>
  {
    ListDir(cache, fs.listDir, Render(ListedDirectory(fs, f, value), f), Limit)
  }

  /** `await get_suggestion(value)`: `Ok(None)` for no suggestion (including a
      missing directory), `Raised` for any other error of the listing. */
  function GetSuggestion(fs: FileSystem, f: Flavor, cache: Cache, value: string): (r: Reply<Option<string>>)
    ensures r.cache == Listed(fs, f, cache, value).cache
    ensures r.result.Raised? <==>
              Listed(fs, f, cache, value).result.Raised? && Listed(fs, f, cache, value).result.failure != FileNotFound
  {
    var listed := Listed(fs, f, cache, value);
    match listed.result
    case Raised(failure) =>
      if failure == FileNotFound then Reply(listed.cache, Ok(None))
      else Reply(listed.cache, Raised(failure))
    case Ok(children) =>
      var candidates := PossiblePaths(OfferedBy(fs, f, value), Sep(f), children);
      if |candidates| == 0 then Reply(listed.cache, Ok(None))
      else
        var suggestion := candidates[FirstShortest(candidates)];
        Reply(listed.cache, Ok(Some(RestoreTilde(value, Render(fs.home, f), suggestion))))
  }

  /** The child the suggestion is made from, stated over the listing order: a
      kept child no longer than any other kept child, and strictly shorter
      than every kept child listed before it. */
  ghost predicate IsChoice(keep: string -> bool, children: seq<string>, j: int)
  {
    && 0 <= j < |children|
    && keep(children[j])
    && (forall k :: 0 <= k < |children| && keep(children[k]) ==> |children[j]| <= |children[k]|)
    && (forall k :: 0 <= k < j && keep(children[k]) ==> |children[k]| > |children[j]|)
  }

  /** At most one child is the choice. */
  lemma ChoiceUnique(keep: string -> bool, children: seq<string>, j1: int, j2: int)
    requires IsChoice(keep, children, j1) && IsChoice(keep, children, j2)
    ensures j1 == j2
  {
  }

  /** Filtering then taking the first of a stable sort by length picks the
      choice of the listing. */
  lemma {:induction false} ChosenChild(keep: string -> bool, sep: char, children: seq<string>)
    returns (j: nat)
    requires |PossiblePaths(keep, sep, children)| > 0
    ensures IsChoice(keep, children, j)
    ensures var pp := PossiblePaths(keep, sep, children);
            pp[FirstShortest(pp)] == children[j] + [sep]
    decreases |children|
  {
    var pp := PossiblePaths(keep, sep, children);
    var rest := children[1..];
    var pp' := PossiblePaths(keep, sep, rest);
    if !keep(children[0]) {
      assert pp == pp';
      var j' := ChosenChild(keep, sep, rest);
      j := j' + 1;
      ShiftChoice(keep, children, j');
    } else if |pp'| == 0 {
      assert pp == [children[0] + [sep]];
      j := 0;
      SoleChoice(keep, children);
    } else {
      assert pp == [children[0] + [sep]] + pp';
      var j' := ChosenChild(keep, sep, rest);
      j := PrependChoice(keep, children, j');
      assert pp[1..] == pp';
    }
  }

  lemma ShiftChoice(keep: string -> bool, children: seq<string>, j': nat)
    requires |children| > 0 && !keep(children[0])
    requires IsChoice(keep, children[1..], j')
    ensures IsChoice(keep, children, j' + 1)
  {
    assert forall k :: 1 <= k < |children| ==> children[k] == children[1..][k - 1];
  }

  lemma SoleChoice(keep: string -> bool, children: seq<string>)
    requires |children| > 0 && keep(children[0])
    requires forall k :: 0 <= k < |children| - 1 ==> !keep(children[1..][k])
    ensures IsChoice(keep, children, 0)
  {
    assert forall k :: 1 <= k < |children| ==> children[k] == children[1..][k - 1];
  }

  /** A kept first child is the choice when it is no longer than the choice
      among the rest; otherwise the choice among the rest stays the choice. */
  lemma PrependChoice(keep: string -> bool, children: seq<string>, j': nat) returns (j: nat)
    requires |children| > 0 && keep(children[0])
    requires IsChoice(keep, children[1..], j')
    ensures j == if |children[0]| <= |children[1..][j']| then 0 else j' + 1
    ensures IsChoice(keep, children, j)
  {
    assert forall k :: 1 <= k < |children| ==> children[k] == children[1..][k - 1];
    j := if |children[0]| <= |children[1..][j']| then 0 else j' + 1;
  }

  /** No suggestion exactly when the directory is missing or no listed child
      is an offered directory; any other listing error escapes. */
  lemma SuggestionAbsent(fs: FileSystem, f: Flavor, cache: Cache, value: string)
    ensures var listed := Listed(fs, f, cache, value);
            GetSuggestion(fs, f, cache, value).result == Ok(None) <==>
              || listed.result == Raised(FileNotFound)
              || (listed.result.Ok? &&
                  forall k :: 0 <= k < |listed.result.value| ==>
                    !Offered(fs, f, Name(Parse(value, f)), listed.result.value[k]))
  {
    var listed := Listed(fs, f, cache, value);
    if listed.result.Ok? {
      var children := listed.result.value;
      var keep := OfferedBy(fs, f, value);
      var pp := PossiblePaths(keep, Sep(f), children);
      assert forall k :: 0 <= k < |children| ==>
        (keep(children[k]) <==> Offered(fs, f, Name(Parse(value, f)), children[k]));
      if |pp| > 0 {
        assert GetSuggestion(fs, f, cache, value).result.value.Some?;
      }
    }
  }

  /** A suggestion is the chosen child followed by the separator, with the
      home directory written back as "~" when the typed value has a "~"; it
      ends with the separator whenever no "~" was typed. */
  lemma SuggestionChosen(fs: FileSystem, f: Flavor, cache: Cache, value: string)
    ensures var listed := Listed(fs, f, cache, value);
            var r := GetSuggestion(fs, f, cache, value).result;
            r.Ok? && r.value.Some? ==>
            var s := r.value.value;
            && listed.result.Ok?
            && (exists j :: IsChoice(OfferedBy(fs, f, value), listed.result.value, j))
            && (forall j :: IsChoice(OfferedBy(fs, f, value), listed.result.value, j) ==>
                  s == RestoreTilde(value, Render(fs.home, f), listed.result.value[j] + [Sep(f)]))
            && ('~' !in value ==> |s| > 0 && s[|s| - 1] == Sep(f))
  {
    var listed := Listed(fs, f, cache, value);
    var r := GetSuggestion(fs, f, cache, value).result;
    if !(r.Ok? && r.value.Some?) {
      return;
    }
    var keep := OfferedBy(fs, f, value);
    var children := listed.result.value;
    var pp := PossiblePaths(keep, Sep(f), children);
    assert |pp| > 0 && r.value.value == RestoreTilde(value, Render(fs.home, f), pp[FirstShortest(pp)]);
    ChoiceSuggestion(keep, Sep(f), children, value, Render(fs.home, f));
  }

  /** The suggestion made from a listing is the choice followed by the
      separator, with "~" written back when typed. */
  lemma ChoiceSuggestion(keep: string -> bool, sep: char, children: seq<string>, value: string, home: string)
    requires |PossiblePaths(keep, sep, children)| > 0
    ensures var pp := PossiblePaths(keep, sep, children);
            var s := RestoreTilde(value, home, pp[FirstShortest(pp)]);
            && (exists j :: IsChoice(keep, children, j))
            && (forall j :: IsChoice(keep, children, j) ==> s == RestoreTilde(value, home, children[j] + [sep]))
            && ('~' !in value ==> |s| > 0 && s[|s| - 1] == sep)
  {
    var j := ChosenChild(keep, sep, children);
    forall j2 | IsChoice(keep, children, j2)
      ensures j2 == j
    {
      ChoiceUnique(keep, children, j, j2);
    }
  }
}

=== FILE: wrappers.dfy ===
/** Optional values, standing in for Python's `X | None`. */
module Wrappers {

  datatype Option<+T> = None | Some(value: T)
}
